=== FILE: README.md ===
# VRMDB title enrichment, modelled in Dafny

VRMDB enriches a spreadsheet of IMDb title identifiers with data scraped from
each title's IMDb page. This project models the core of that scraper in two
passes.

- **First pass: `enrich_dataframe`.** For each row it:
  - builds the title URL from `str(id).strip()`;
  - fetches and parses the page;
  - runs six field getters: genres, languages, directors, writers, top-five
    cast, and the poster with its high-resolution rewrite;
  - opens a browser session to collect the streaming-provider logos;
  - assigns eight new columns, in order: "IMDB URL", the six getter columns
    and "StreamingLogo".
- **Second pass: `enrich_certifications`.** For each row it looks up the
  parental-guide certificate link on the title page and fills a
  "Certification" column. Anything that goes wrong gives "Not Rated".

Modules:

- `Wrappers`: `Option` and `Result`.
- `Text`: Python's `str.strip`, `in`, `join` and `split`, with their
  characterisations, and small sequence helpers.
- `Frame`: the part of a pandas DataFrame the passes touch, namely cells,
  columns and `df[name] = values`.
- `ImdbPage`: `imdb_page.py`. It covers the URL, the getters over an
  already-parsed document, the logo collection over an already-rendered
  session, `extract_all`, and the errors that abort a pass.
- `Scraper`: `scraper.py`, the first pass.
- `Certification`: `imdb_certification.py`, the second pass.

The outside world enters as function parameters, keyed by URL:

- `fetch: string -> PageResponse`: the HTTP request with its parse result,
  which is either `HttpError` or `Fetched(doc)`.
- `render: string -> LogoSession`: the Selenium session, with the outcomes
  `LaunchFailed`, `SessionFailed` or `Rendered(card srcs, row srcs)`.
- `lookup: string -> CertResponse`: the certification request, which is either
  `RequestFailed` or `Loaded(anchors)`.

Each pass also returns the sequence of URLs it requested, so request order and
request count are part of the contracts.

**Failure behaviour.** A page that cannot be fetched does not leave its row
with empty values; the whole pass stops:

- `fetch` calls `raise_for_status()` (`imdb_page.py:89`) outside any handler,
  and the first getter triggers the fetch (`scraper.py:33`). A failed fetch
  therefore propagates out of `enrich_dataframe` and aborts the whole pass.
- `webdriver.Chrome(...)` (`imdb_page.py:255`) sits before the guarded block,
  so a browser that cannot start aborts the pass the same way.

`EnrichDataframe` returns `Failure(FetchFailed(url))`
or `Failure(BrowserFailed(url))` for the first such row. Only failures inside
the guarded browser block give `""`.

**The poster comment and code disagree.** The comment at `imdb_page.py:225-227`
says the rewrite strips all resizing parameters. The code drops only the last
`_`-separated segment (lines 228-232). The model follows the code:
`PosterRewriteExample` shows `xyz_QL75_UY281_.jpg` becoming
`xyz_QL75_UY281.jpg`, which still carries both the `_QL` and the `_UY` marker.

## Model

| member | source | states |
|---|---|---|
| ImdbPage.TitleUrl | VRMDB/imdb_framework/pages/imdb_page.py:57-59 | the page URL is `BASE_URL`, then the identifier, then a trailing slash: its length, prefix, last character and middle segment |
| ImdbPage.TitleUrlRoundTrip | VRMDB/imdb_framework/pages/imdb_page.py:57-59 | reading the identifier back out of a title URL gives the identifier, and a URL that reads back to an identifier is that identifier's URL |
| ImdbPage.Genres | VRMDB/imdb_framework/pages/imdb_page.py:99-116 | no interests block gives ""; otherwise the result is the ", "-join of the non-empty chip texts in document order; it is "" exactly when the block is missing or every chip is empty |
| ImdbPage.Collect | VRMDB/imdb_framework/pages/imdb_page.py:150-161 | a name is collected exactly when it is non-empty and is a link of some labelled item whose label contains one of the keys |
| ImdbPage.CollectAppend | VRMDB/imdb_framework/pages/imdb_page.py:151-161 | collecting over two consecutive runs of items is collecting each run in turn, so names keep document order |
| ImdbPage.CollectOne | VRMDB/imdb_framework/pages/imdb_page.py:152-161 | one item contributes its non-empty links in link order, each as often as it occurs, when its label is selected, and nothing otherwise; with `CollectAppend` this fixes the whole list |
| ImdbPage.UnlabelledContributesNothing | VRMDB/imdb_framework/pages/imdb_page.py:152-154 | an item without a label span can be removed from anywhere without changing the result |
| ImdbPage.CollectBound | VRMDB/imdb_framework/pages/imdb_page.py:157-161 | at most one name is collected per link in the document |
| ImdbPage.JoinedCollectEmpty | VRMDB/imdb_framework/pages/imdb_page.py:162-164 | the joined names are "" exactly when every link of every selected item is empty |
| ImdbPage.Languages | VRMDB/imdb_framework/pages/imdb_page.py:122-142 | a missing Details section gives the empty list, and only then; otherwise the ", "-join of the names collected from rows labelled "Language" |
| ImdbPage.Directors | VRMDB/imdb_framework/pages/imdb_page.py:147-164 | the ", "-join of the names collected from credit blocks labelled "Director"; "" exactly when no such block has a non-empty link |
| ImdbPage.Writers | VRMDB/imdb_framework/pages/imdb_page.py:169-186 | the ", "-join of the names collected from credit blocks labelled "Writer" or "Writers"; "" exactly when no such block has a non-empty link |
| ImdbPage.WritersKeyRedundant | VRMDB/imdb_framework/pages/imdb_page.py:178 | testing for "Writers" besides "Writer" changes nothing, since every label containing "Writers" contains "Writer" |
| ImdbPage.SliceTo | VRMDB/imdb_framework/pages/imdb_page.py:199 | Python's `rows[:n]` is an initial part of `rows`, of length `min(n, len)` for `n >= 0` and `len + n` (at least 0) for negative `n` |
| ImdbPage.ActorNames | VRMDB/imdb_framework/pages/imdb_page.py:199-205 | a name is kept exactly when it is the non-empty actor-link text of a row; rows without an actor link are skipped |
| ImdbPage.ActorNamesAppend | VRMDB/imdb_framework/pages/imdb_page.py:200-205 | actor names over consecutive runs of rows are the names of each run in turn, so names keep row order, one per kept row |
| ImdbPage.CastNames | VRMDB/imdb_framework/pages/imdb_page.py:191-205 | at most `top_n` names; a name is collected exactly when it is the non-empty actor name of one of the first `top_n` rows (as `rows[:top_n]` counts them) |
| ImdbPage.CastIgnoresLaterRows | VRMDB/imdb_framework/pages/imdb_page.py:199 | rows after the first `top_n` never contribute, even when earlier rows are skipped |
| ImdbPage.Cast | VRMDB/imdb_framework/pages/imdb_page.py:191-208 | a missing cast section gives the empty list, and only then; otherwise the ", "-join of the cast names |
| ImdbPage.HdPosterUrl | VRMDB/imdb_framework/pages/imdb_page.py:228-232 | without a `_UX`, `_UY` or `_QL` marker the `src` is unchanged; with one, the result is the text before the last `_` plus ".jpg", with exactly one underscore fewer |
| ImdbPage.LastSegmentDropped | VRMDB/imdb_framework/pages/imdb_page.py:229-231 | re-joining all but the last piece of `src.split("_")` with "_" gives the text before the last underscore |
| ImdbPage.EarlierMarkerSurvives | VRMDB/imdb_framework/pages/imdb_page.py:228-232 | a marker that ends before the last underscore is still present after the rewrite |
| ImdbPage.PosterRewriteExample | VRMDB/imdb_framework/pages/imdb_page.py:225-232 | the comment's example shape `..._QL75_UY281_.jpg` becomes `..._QL75_UY281.jpg`, which still carries both the `_QL` and the `_UY` marker |
| ImdbPage.Poster | VRMDB/imdb_framework/pages/imdb_page.py:213-235 | a missing poster div or image gives ""; otherwise the stripped `src` (with "" for a missing attribute), unchanged without a marker and ending in ".jpg" with one |
| ImdbPage.Dedup | VRMDB/imdb_framework/pages/imdb_page.py:274-278 | the kept `src`s have no duplicates and are exactly the non-empty `src`s of the images |
| ImdbPage.DedupFirstOccurrenceOrder | VRMDB/imdb_framework/pages/imdb_page.py:274-278 | the kept `src`s appear in the order of their first occurrence among the images |
| ImdbPage.LogoField | VRMDB/imdb_framework/pages/imdb_page.py:240-290 | the getter raises exactly when the browser cannot be started; it gives "" exactly when the guarded session failed or no image has a non-empty `src` |
| ImdbPage.StreamingLogoUrl | VRMDB/imdb_framework/pages/imdb_page.py:255-287 | the collection loop computes the logo value: the deduplicated `src`s joined by a space, a vertical bar and a space, with the invariant that after `i` images the kept list is the deduplication of the first `i` |
| ImdbPage.ExtractAll | VRMDB/imdb_framework/pages/imdb_page.py:296-316 | the title fails exactly when its page fetch fails or its browser cannot start, with the URL in the error; a record carries the identifier and a URL that reads back to it |
| Scraper.RowIds | VRMDB/imdb_framework/scraper.py:24-25 | one identifier per row, in row order, each `str(value).strip()` |
| Scraper.NewColumnsDistinct | VRMDB/imdb_framework/scraper.py:49-52 | the eight assigned column names are distinct |
| Scraper.Assemble | VRMDB/imdb_framework/scraper.py:49-52 | assigning the eight columns keeps the table valid and the existing header order, leaves every other column alone, gives column `k` the `k`-th field of every record, and adds no column but the eight names |
| Scraper.AssembledRow | VRMDB/imdb_framework/scraper.py:49-52 | row `i` of the eight new columns holds exactly the eight fields of record `i` |
| Scraper.FetchRecords | VRMDB/imdb_framework/scraper.py:24-38 | request `j` is the title URL of row `j`; success means one record per row, each the extraction of its own row; failure means every earlier row extracted and the last requested row raised that error |
| Scraper.AbortCause | VRMDB/imdb_framework/scraper.py:32-38 | an aborted loop stopped at its last request: that page failed to fetch, or it fetched and its browser did not start; every earlier page fetched and its browser started |
| Scraper.AbortedMeansSomeRowRaises | VRMDB/imdb_framework/scraper.py:24-38 | an aborted loop means some row does not extract |
| Scraper.AssembledFilled | VRMDB/imdb_framework/scraper.py:49-54 | when every row extracts, the assembled table holds each row's record in the new columns, every other column unchanged, and no column besides the existing ones and the new names |
| Scraper.EnrichRows | VRMDB/imdb_framework/scraper.py:18-54 | requests go in row order; the pass succeeds exactly when every row extracts; on failure it stopped at the first raising row; on success one request per row and the table is filled row by row, with no column added but the eight names |
| Scraper.EnrichDataframe | VRMDB/imdb_framework/scraper.py:18-54 | a missing "Const" column fails before any request; otherwise the same as `EnrichRows` over the stripped identifiers |
| Scraper.UrlColumn | VRMDB/imdb_framework/scraper.py:25-29 | row `i` of "IMDB URL" is `BASE_URL` + `strip(str(id_i))` + "/" |
| Scraper.CastAtMostFive | VRMDB/imdb_framework/scraper.py:14 | the Cast cell is the empty list for a page without a cast section; otherwise it is the ", "-join of at most five names |
| Frame.SetColumn | VRMDB/imdb_framework/scraper.py:49 | `df[name] = values` stores the values under `name`, keeps every other column, adds only `name`, and appends it to the header only when it is new |
| Frame.SetColumns | VRMDB/imdb_framework/scraper.py:49-52 | assigning columns in turn keeps the table valid and its height |
| Frame.SetColumnsAssigns | VRMDB/imdb_framework/scraper.py:49-52 | after assigning distinct names in turn, each name holds its own column |
| Frame.SetColumnsKeeps | VRMDB/imdb_framework/scraper.py:49-52 | a column that is not assigned keeps its cells |
| Frame.SetColumnsKeys | VRMDB/imdb_framework/scraper.py:49-52 | the columns afterwards are exactly the existing ones and the assigned names |
| Frame.SetColumnsHeader | VRMDB/imdb_framework/scraper.py:49-52 | existing columns keep their places in the header |
| Certification.CertUrl | VRMDB/imdb_Certification/imdb_certification.py:13 | the certification page URL carries the identifier, unchanged, between the title prefix and a slash |
| Certification.CertUrlIsTitleUrl | VRMDB/imdb_Certification/imdb_certification.py:13 | the certification pass requests the same URL as the first pass |
| Certification.CertHref | VRMDB/imdb_Certification/imdb_certification.py:18 | the selected link's `href` carries the identifier, unchanged, between "/title/" and the parental-guide suffix |
| Certification.CertHrefInjective | VRMDB/imdb_Certification/imdb_certification.py:18 | different identifiers select different links |
| Certification.Matches | VRMDB/imdb_Certification/imdb_certification.py:18-19 | the selected anchors are exactly those whose `href` equals the wanted one |
| Certification.MatchesAppend | VRMDB/imdb_Certification/imdb_certification.py:19 | selection keeps document order |
| Certification.CertOf | VRMDB/imdb_Certification/imdb_certification.py:21-22 | one anchor gives a non-empty, unpadded value: its stripped text if that is non-empty, else "Not Rated" |
| Certification.GetCertification | VRMDB/imdb_Certification/imdb_certification.py:12-26 | never "" and never padded; any request or parse error gives "Not Rated"; no matching link gives "Not Rated"; otherwise "Not Rated" or the stripped text of a matching link |
| Certification.FirstMatchDecides | VRMDB/imdb_Certification/imdb_certification.py:20-22 | only the first matching link counts: later links, even rated ones, are never read |
| Certification.OtherAnchorsIrrelevant | VRMDB/imdb_Certification/imdb_certification.py:18-19 | links with any other `href` do not change the result, wherever they stand |
| Certification.BlankFirstMatchShadows | VRMDB/imdb_Certification/imdb_certification.py:20-22 | a blank first matching link gives "Not Rated" even when a later matching link carries a rating |
| Certification.PaddedRatingTrimmed | VRMDB/imdb_Certification/imdb_certification.py:21-22 | the first matching link's text is returned without its surrounding whitespace |
| Certification.CertifyRows | VRMDB/imdb_Certification/imdb_certification.py:33-39 | one lookup per row, in row order, from `str(value)` without stripping; cell `j` is the certification read from request `j` |
| Certification.EnrichCertifications | VRMDB/imdb_Certification/imdb_certification.py:28-41 | fails exactly when the identifier column is missing, and then before any request; otherwise a "Certification" column with one cell per row, every other column unchanged, and no other column added |
| Text.Strip | VRMDB/imdb_framework/scraper.py:25 | `str.strip()` never lengthens and leaves no whitespace at either end |
| Text.StripPadding | VRMDB/imdb_framework/scraper.py:25 | `strip` removes exactly the surrounding whitespace: any padding around an unpadded core gives the core back |
| Text.UnpaddedIffStripped | VRMDB/imdb_framework/scraper.py:25 | `strip` leaves a string alone exactly when neither end is whitespace |
| Text.StripIdempotent | VRMDB/imdb_framework/scraper.py:25 | stripping twice is stripping once |
| Text.Contains | VRMDB/imdb_framework/pages/imdb_page.py:228 | `sub in s` holds exactly when `sub` occurs at some position of `s` |
| Text.ContainsPrefix | VRMDB/imdb_framework/pages/imdb_page.py:178 | whoever contains a string contains each of its prefixes |
| Text.NonEmpty | VRMDB/imdb_framework/pages/imdb_page.py:109-112 | the kept strings are exactly the non-empty ones, never more than the input |
| Text.NonEmptyAppend | VRMDB/imdb_framework/pages/imdb_page.py:109-112 | filtering keeps document order |
| Text.JoinEmptyIff | VRMDB/imdb_framework/pages/imdb_page.py:114 | a join of non-empty parts is "" exactly when there are no parts |
| Text.JoinLength | VRMDB/imdb_framework/pages/imdb_page.py:114 | a join is as long as its parts plus one separator between each pair |
| Text.SplitPieces | VRMDB/imdb_framework/pages/imdb_page.py:229 | `split("_")` gives one piece more than there are underscores, and no piece holds one |
| Text.JoinSplit | VRMDB/imdb_framework/pages/imdb_page.py:229-231 | joining the pieces of a split with the same separator gives the string back |
| Text.SplitJoin | VRMDB/imdb_framework/pages/imdb_page.py:229-231 | splitting a join of separator-free pieces gives the pieces back |

## Left out

- HTTP details are not modelled: the session's retry policy (three retries
  with backoff, on status 403, 429, 500, 502, 503 and 504 only, so 501 and
  505 are not retried; `imdb_page.py:80-86`), the request headers, the
  30-second timeout, the `time.sleep` pauses and all logging output. The
  retries, headers and timeout decide whether `session.get` or
  `raise_for_status` raises (`imdb_page.py:88-89`), and a raise aborts the
  pass; their net effect is folded into the outcome of `fetch` for that URL
  (`HttpError` or `Fetched`). The pauses and the logging change no value.
- The network is a pure function of the URL (`fetch`, `render`, `lookup`).
  Two rows with the same identifier therefore get identical responses. The
  if-and-only-if in `EnrichRows` and `EnrichDataframe` relies on this, and a
  real server could answer the same URL differently on a second request.
- HTML parsing, BeautifulSoup's `find`/`find_all`, lxml's XPath and Selenium's
  element queries are not modelled. Their results, already stripped where the
  code uses `get_text(strip=True)`, are inputs in `TitleDoc`, `LogoSession`
  and `CertResponse`.
- The 15-second wait for a card logo, navigation errors and any other
  exception inside the guarded browser block are one outcome, `SessionFailed`.
- EnrichDataframe: `enrich_dataframe` mutates the caller's DataFrame in place
  (`scraper.py:49-54`). The model returns a new `Table`, and the caller's value
  is unchanged.
- EnrichDataframe, EnrichCertifications: non-string identifier cells are not
  modelled. A cell is a string or the empty list, and `str` of a cell is
  `CellStr`. A float or NaN identifier (which `str` turns into, e.g., "nan")
  has no counterpart.
- EnrichCertifications: reading the input CSV, writing `output_csv` and
  returning its path are I/O and are left out. The pass takes and returns a
  `Table`.
- Matches: an identifier containing `"` breaks the XPath string literal built
  at `imdb_certification.py:18`, and lxml raises. The model compares the
  `href` exactly, so such an identifier selects its link instead of giving
  "Not Rated".
- `run_enrichment` (`scraper.py:56-61`) calls `read_input_excel` and
  `save_enriched_excel`, which the code base does not define, so it cannot
  run. `main.py`, `config.py` and `data_io.py` are file I/O and configuration
  and are not part of this model.
- The unused `imgs` query at `imdb_page.py:273` has no effect on the result
  and is not modelled.
- The `ImdbTitleData` annotations declare lists for several fields, but the
  getters return strings (or the empty list when a section is missing). The
  model stores what the getters return.

=== FILE: certification.dfy ===
/** The second enrichment pass: one certification per row, read from the
    parental-guide link of the title page, with "Not Rated" whenever the link
    is missing, empty, or the page could not be read. */
module Certification {
  import opened Wrappers
  import opened Text
  import opened Frame
  import ImdbPage

  /** The value recorded whenever no certification can be read. */
  const NotRated := "Not Rated"

  /** "Not Rated" is a non-empty value with no padding. */
  lemma NotRatedUnpadded()
    ensures NotRated != "" && Unpadded(NotRated)
  {
    assert NotRated[0] == 'N' && NotRated[|NotRated| - 1] == 'd';
  }

  /** The column the pass assigns. */
  const CertColumn := "Certification"

  /** The page the certification is read from. */
  function CertUrl(id: string): (url: string)
    ensures |url| == |"https://www.imdb.com/title/"| + |id| + 1
    ensures url[|"https://www.imdb.com/title/"|..|url| - 1] == id
  {
    "https://www.imdb.com/title/" + id + "/"
  }

  /** The certification page is the same URL the first pass fetches. */
  lemma CertUrlIsTitleUrl(id: string)
    ensures CertUrl(id) == ImdbPage.TitleUrl(id)
  {
  }

  const HrefPrefix := "/title/"
  const HrefSuffix := "/parentalguide/?ref_=tt_ov_pg#certificates"

  /** The exact `href` of the certificate link the query selects. */
  function CertHref(id: string): (href: string)
    ensures |href| == |HrefPrefix| + |id| + |HrefSuffix|
    ensures href[|HrefPrefix|..|HrefPrefix| + |id|] == id
  {
    HrefPrefix + id + HrefSuffix
  }

  /** Different titles select different links. */
  lemma CertHrefInjective(a: string, b: string)
    ensures CertHref(a) == CertHref(b) ==> a == b
  {
    if CertHref(a) == CertHref(b) {
      assert |a| == |b|;
      assert a == CertHref(a)[|HrefPrefix|..|HrefPrefix| + |a|];
    }
  }

  /** An anchor of the parsed page: its `href` attribute and its text
      content. */
  datatype Anchor = Anchor(href: string, text: string)

  /** The outcome of reading the page: anything raised while requesting or
      parsing it, or the anchors of the parsed document in document order. */
  datatype CertResponse = RequestFailed | Loaded(anchors: seq<Anchor>)

  /** The anchors whose `href` is exactly `href`, in document order. */
  function Matches(anchors: seq<Anchor>, href: string): (ms: seq<Anchor>)
    ensures |ms| <= |anchors|
    ensures forall a :: a in ms <==> a in anchors && a.href == href
  {
    if |anchors| == 0 then []
    else
      var tail := Matches(anchors[1..], href);
      assert forall a :: a in anchors <==> a == anchors[0] || a in anchors[1..];
      if anchors[0].href == href then [anchors[0]] + tail else tail
  }

  /** Matching a document split in two matches each part in turn. */
  lemma {:induction false} MatchesAppend(a: seq<Anchor>, b: seq<Anchor>, href: string)
    ensures Matches(a + b, href) == Matches(a, href) + Matches(b, href)
    decreases |a|
  {
    if |a| == 0 {
      assert a + b == b;
    } else {
      assert (a + b)[1..] == a[1..] + b;
      MatchesAppend(a[1..], b, href);
    }
  }

  /** The certification one matching anchor yields: its stripped text, or
      "Not Rated" when that is empty. */
  function CertOf(a: Anchor): (r: string)
    ensures r != "" && Unpadded(r)
    ensures r == NotRated || r == Strip(a.text)
    ensures Strip(a.text) != "" ==> r == Strip(a.text)
  {
    NotRatedUnpadded();
    var cert := Strip(a.text);
    if cert != "" then cert else NotRated
  }

  /** `get_certification(id)` given what reading `CertUrl(id)` produced: only
      the first matching anchor counts. The result is never empty and never
      padded; it is "Not Rated" unless it is the stripped text of a matching
      anchor. */
  function GetCertification(id: string, response: CertResponse): (r: string)
    ensures r != "" && Unpadded(r)
    ensures response.RequestFailed? ==> r == NotRated
    ensures response.Loaded? && (forall a :: a in response.anchors ==> a.href != CertHref(id)) ==> r == NotRated
    ensures r == NotRated ||
      (response.Loaded? && exists a :: a in response.anchors && a.href == CertHref(id) && r == Strip(a.text))
  {
    NotRatedUnpadded();
    match response
    case RequestFailed => NotRated
    case Loaded(anchors) =>
      var ms := Matches(anchors, CertHref(id));
      if |ms| > 0 then
        assert ms[0] in ms;
        CertOf(ms[0])
      else
        NotRated
  }

  /** A document without a matching anchor matches nothing. */
  lemma MatchesNone(anchors: seq<Anchor>, href: string)
    requires forall b :: b in anchors ==> b.href != href
    ensures Matches(anchors, href) == []
  {
  }

  /** Matching stops being empty at the first matching anchor. */
  lemma MatchesFrom(before: seq<Anchor>, a: Anchor, after: seq<Anchor>, href: string)
    requires forall b :: b in before ==> b.href != href
    requires a.href == href
    ensures Matches(before + [a] + after, href) == [a] + Matches(after, href)
  {
    MatchesNone(before, href);
    assert Matches([a], href) == [a] by {
      assert [a][1..] == [];
    }
    MatchesAppend(before, [a], href);
    MatchesAppend(before + [a], after, href);
  }

  /** The first matching anchor decides: whatever precedes it does not
      match, and whatever follows it is never read, even when its own text
      is a real rating. */
  lemma FirstMatchDecides(id: string, before: seq<Anchor>, a: Anchor, after: seq<Anchor>)
    requires forall b :: b in before ==> b.href != CertHref(id)
    requires a.href == CertHref(id)
    ensures GetCertification(id, Loaded(before + [a] + after)) == CertOf(a)
  {
    MatchesFrom(before, a, after, CertHref(id));
  }

  /** Anchors with any other `href` do not change the result, wherever they
      stand. */
  lemma OtherAnchorsIrrelevant(id: string, before: seq<Anchor>, b: Anchor, after: seq<Anchor>)
    requires b.href != CertHref(id)
    ensures GetCertification(id, Loaded(before + [b] + after)) == GetCertification(id, Loaded(before + after))
  {
    MatchesAppend(before + [b], after, CertHref(id));
    MatchesAppend(before, [b], CertHref(id));
    MatchesAppend(before, after, CertHref(id));
  }

  /** A first matching link whose text is blank gives "Not Rated", even when
      a later matching link carries a rating. */
  lemma BlankFirstMatchShadows(id: string, blank: string, rating: string)
    requires AllSpace(blank)
    ensures GetCertification(id, Loaded([Anchor(CertHref(id), blank), Anchor(CertHref(id), rating)])) == NotRated
  {
    var first, second := Anchor(CertHref(id), blank), Anchor(CertHref(id), rating);
    assert [first, second] == [] + [first] + [second];
    FirstMatchDecides(id, [], first, [second]);
    AllSpaceTrims(blank);
  }

  /** The text of the first matching link is read without its padding. */
  lemma PaddedRatingTrimmed(id: string, before: string, rating: string, after: string)
    requires AllSpace(before) && AllSpace(after) && Unpadded(rating) && rating != ""
    ensures GetCertification(id, Loaded([Anchor(CertHref(id), before + rating + after)])) == rating
  {
    var a := Anchor(CertHref(id), before + rating + after);
    assert [a] == [] + [a] + [];
    FirstMatchDecides(id, [], a, []);
    StripPadding(before, rating, after);
  }

  /** The first `|certs|` rows of `ids` were looked up in order: request `j`
      is the page of row `j`'s `str(value)`, unstripped, and cell `j` is the
      certification read from it. */
  predicate CertifiedUpTo(ids: seq<Cell>, certs: seq<Cell>, requested: seq<string>, lookup: string -> CertResponse) {
    && |requested| == |certs| <= |ids|
    && forall j :: 0 <= j < |certs| ==>
         && requested[j] == CertUrl(CellStr(ids[j]))
         && certs[j] == Str(GetCertification(CellStr(ids[j]), lookup(requested[j])))
  }

  /** The row loop of the certification pass: one lookup per row, in row
      order, and never an error, since `get_certification` catches every
      failure. */
  method CertifyRows(ids: seq<Cell>, lookup: string -> CertResponse) returns (certs: seq<Cell>, requested: seq<string>)
    ensures |certs| == |ids| && CertifiedUpTo(ids, certs, requested, lookup)
  {
    var page := (c: Cell) => CertUrl(CellStr(c));
    var read := (c: Cell) => Str(GetCertification(CellStr(c), lookup(CertUrl(CellStr(c)))));
    certs, requested := [], [];
    while |certs| < |ids|
      invariant |requested| == |certs|
      invariant MapsUpTo(ids, requested, page) && MapsUpTo(ids, certs, read)
      decreases |ids| - |certs|
    {
      MapsStep(ids, requested, page);
      MapsStep(ids, certs, read);
      requested := requested + [page(ids[|certs|])];
      certs := certs + [read(ids[|certs|])];
    }
    ReadRows(ids, certs, requested, lookup);
  }

  /** The loop's two mapped columns are the rows `CertifiedUpTo` describes. */
  lemma ReadRows(ids: seq<Cell>, certs: seq<Cell>, requested: seq<string>, lookup: string -> CertResponse)
    requires |requested| == |certs| <= |ids|
    requires MapsUpTo(ids, requested, (c: Cell) => CertUrl(CellStr(c)))
    requires MapsUpTo(ids, certs, (c: Cell) => Str(GetCertification(CellStr(c), lookup(CertUrl(CellStr(c))))))
    ensures CertifiedUpTo(ids, certs, requested, lookup)
  {
  }

  /** `enrich_certifications` on an already-read table: a missing identifier
      column raises before any request; otherwise each row's `str(value)`,
      unstripped, selects the page requested for that row, and the column
      "Certification" receives one certification per row in row order. */
  method EnrichCertifications(t: Table, column: string, lookup: string -> CertResponse)
    returns (r: Result<Table, ImdbPage.EnrichError>, requested: seq<string>)
    requires Valid(t)
    ensures column !in t.columns <==> r.Failure?
    ensures column !in t.columns ==> r == Failure(ImdbPage.MissingColumn(column)) && requested == []
    ensures r.Success? ==>
      && Valid(r.value) && r.value.height == t.height && t.header <= r.value.header
      && (forall n :: n in t.columns && n != CertColumn ==> n in r.value.columns && r.value.columns[n] == t.columns[n])
      && CertColumn in r.value.columns
      && r.value.columns.Keys == t.columns.Keys + {CertColumn}
      && |requested| == t.height
      && CertifiedUpTo(t.columns[column], r.value.columns[CertColumn], requested, lookup)
  {
    if column !in t.columns {
      return Failure(ImdbPage.MissingColumn(column)), [];
    }
    var certs;
    certs, requested := CertifyRows(t.columns[column], lookup);
    r := Success(SetColumn(t, CertColumn, certs));
  }
}

=== FILE: frame.dfy ===
/** The slice of a pandas DataFrame that the enrichment passes touch: named
    columns of equal height, read by name and assigned whole. */
module Frame {
  import opened Text

  /** One cell value. The getters hand pandas either a string or, when a
      section is missing, the empty Python list `[]`. */
  datatype Cell = Str(s: string) | EmptyList

  /** Python's `str(value)` of a cell, as the passes apply it to identifiers. */
  function CellStr(c: Cell): string {
    match c
    case Str(s) => s
    case EmptyList => "[]"
  }

  /** A table: column names in display order, the cells of each column, and
      the number of rows. */
  datatype Table = Table(header: seq<string>, columns: map<string, seq<Cell>>, height: nat)

  /** Column names are distinct and name exactly the stored columns, and every
      column has one cell per row. */
  predicate Valid(t: Table) {
    && NoDuplicates(t.header)
    && (forall n :: n in t.header ==> n in t.columns)
    && (forall n :: n in t.columns ==> n in t.header)
    && (forall n :: n in t.columns ==> |t.columns[n]| == t.height)
  }

  /** pandas' `df[name] = values`: replaces the column in place when it exists
      and appends it at the right-hand end otherwise. pandas refuses a list whose
      length differs from the table's. */
  function SetColumn(t: Table, name: string, values: seq<Cell>): (r: Table)
    requires Valid(t) && |values| == t.height
    ensures Valid(r) && r.height == t.height
    ensures name in r.columns && r.columns[name] == values
    ensures forall n :: n in t.columns && n != name ==> n in r.columns && r.columns[n] == t.columns[n]
    ensures r.columns.Keys == t.columns.Keys + {name}
    ensures t.header <= r.header
  {
    var header := if name in t.header then t.header else t.header + [name];
    Table(header, t.columns[name := values], t.height)
  }

  /** Every column of `cols` has one cell per row of `t`. */
  predicate Fits(t: Table, cols: seq<seq<Cell>>) {
    forall m :: 0 <= m < |cols| ==> |cols[m]| == t.height
  }

  /** Assigns several distinct columns in turn. */
  function SetColumns(t: Table, names: seq<string>, cols: seq<seq<Cell>>): (r: Table)
    requires Valid(t) && |names| == |cols| && NoDuplicates(names) && Fits(t, cols)
    ensures Valid(r) && r.height == t.height
    decreases |names|
  {
    if |names| == 0 then t
    else
      SplitFirst(names, cols);
      SetColumns(SetColumn(t, names[0], cols[0]), names[1..], cols[1..])
  }

  /** Each name ends up holding its own column: later assignments write other
      names, since the names are distinct. */
  lemma {:induction false} SetColumnsAssigns(t: Table, names: seq<string>, cols: seq<seq<Cell>>)
    requires Valid(t) && |names| == |cols| && NoDuplicates(names) && Fits(t, cols)
    ensures var r := SetColumns(t, names, cols);
      forall m :: 0 <= m < |names| ==> names[m] in r.columns && r.columns[names[m]] == cols[m]
    decreases |names|
  {
    if |names| > 0 {
      SplitFirst(names, cols);
      var t1 := SetColumn(t, names[0], cols[0]);
      SetColumnsAssigns(t1, names[1..], cols[1..]);
      SetColumnsKeeps(t1, names[1..], cols[1..]);
    }
  }

  /** A column whose name is not assigned keeps its cells. */
  lemma {:induction false} SetColumnsKeeps(t: Table, names: seq<string>, cols: seq<seq<Cell>>)
    requires Valid(t) && |names| == |cols| && NoDuplicates(names) && Fits(t, cols)
    ensures var r := SetColumns(t, names, cols);
      forall n :: n in t.columns && n !in names ==> n in r.columns && r.columns[n] == t.columns[n]
    decreases |names|
  {
    if |names| > 0 {
      SplitFirst(names, cols);
      SetColumnsKeeps(SetColumn(t, names[0], cols[0]), names[1..], cols[1..]);
    }
  }

  /** The existing columns keep their places; new ones go to the right. */
  lemma {:induction false} SetColumnsHeader(t: Table, names: seq<string>, cols: seq<seq<Cell>>)
    requires Valid(t) && |names| == |cols| && NoDuplicates(names) && Fits(t, cols)
    ensures t.header <= SetColumns(t, names, cols).header
    decreases |names|
  {
    if |names| > 0 {
      SplitFirst(names, cols);
      var t1 := SetColumn(t, names[0], cols[0]);
      SetColumnsHeader(t1, names[1..], cols[1..]);
      assert t.header <= t1.header;
    }
  }

  /** Only the assigned names are added: the columns afterwards are the
      existing ones and the names. */
  lemma {:induction false} SetColumnsKeys(t: Table, names: seq<string>, cols: seq<seq<Cell>>)
    requires Valid(t) && |names| == |cols| && NoDuplicates(names) && Fits(t, cols)
    ensures SetColumns(t, names, cols).columns.Keys == t.columns.Keys + set n | n in names
    decreases |names|
  {
    if |names| > 0 {
      SplitFirst(names, cols);
      var t1 := SetColumn(t, names[0], cols[0]);
      SetColumnsKeys(t1, names[1..], cols[1..]);
    }
  }

  /** The facts the recursive step of `SetColumns` needs about the first name
      and the remaining ones. */
  lemma SplitFirst(names: seq<string>, cols: seq<seq<Cell>>)
    requires |names| == |cols| > 0 && NoDuplicates(names)
    ensures NoDuplicates(names[1..]) && names[0] !in names[1..]
    ensures forall m :: 1 <= m < |names| ==> names[m] == names[1..][m - 1] && cols[m] == cols[1..][m - 1]
    ensures forall n :: n in names <==> n == names[0] || n in names[1..]
  {
    assert names == [names[0]] + names[1..];
  }

}

=== FILE: imdb_page.dfy ===
/** One title page: its URL, the six field extractors applied to an
    already-parsed document, the streaming-logo collection applied to an
    already-rendered browser session, and the record that gathers them.

    Each document query is an input here: a section the page lacks is `None`,
    and every text is the stripped text the parser returns. */
module ImdbPage {
  import opened Wrappers
  import opened Text
  import opened Frame

  const BaseUrl := "https://www.imdb.com/title/"

  /** Number of cast rows the scraper asks for. */
  const CastTopN := 5

  // ---------------------------------------------------------------------
  // Page URL
  // ---------------------------------------------------------------------

  /** The page URL a title page is built with: base URL, identifier, slash. */
  function TitleUrl(id: string): (url: string)
    ensures |url| == |BaseUrl| + |id| + 1
    ensures BaseUrl <= url && url[|url| - 1] == '/'
    ensures url[|BaseUrl|..|url| - 1] == id
  {
    BaseUrl + id + "/"
  }

  /** Reads the identifier back out of a title page URL. */
  function TitleIdOf(url: string): (id: Option<string>)
    ensures id.Some? <==> |url| > |BaseUrl| && BaseUrl <= url && url[|url| - 1] == '/'
  {
    if |url| > |BaseUrl| && BaseUrl <= url && url[|url| - 1] == '/' then
      Some(url[|BaseUrl|..|url| - 1])
    else
      None
  }

  /** `TitleUrl` and `TitleIdOf` are inverse to each other: every identifier
      has its own URL, and every title URL belongs to exactly one identifier. */
  lemma TitleUrlRoundTrip(id: string, url: string)
    ensures TitleIdOf(TitleUrl(id)) == Some(id)
    ensures TitleIdOf(url) == Some(id) ==> TitleUrl(id) == url
  {
    if TitleIdOf(url) == Some(id) {
      assert url == url[..|BaseUrl|] + url[|BaseUrl|..|url| - 1] + [url[|url| - 1]];
    }
  }

  // ---------------------------------------------------------------------
  // The parsed document
  // ---------------------------------------------------------------------

  /** A list item with an optional label span and the texts of its links:
      a principal-credit block or a row of the Details section. */
  datatype LabelledItem = LabelledItem(labelText: Option<string>, links: seq<string>)

  /** The poster block: the poster `div` may be absent, it may hold no `img`,
      and the `img` may lack a `src` attribute. */
  datatype PosterBlock = NoPosterDiv | NoPosterImg | PosterImg(src: Option<string>)

  /** What the extractors read from one parsed title page. */
  datatype TitleDoc = TitleDoc(
    interests: Option<seq<string>>,        // chip texts of the interests block
    details: Option<seq<LabelledItem>>,    // list items of the Details section
    principalCredits: seq<LabelledItem>,   // every principal-credit list item
    castRows: Option<seq<Option<string>>>, // per cast row, its actor link text
    poster: PosterBlock)

  /** The outcome of fetching a title page. */
  datatype PageResponse = HttpError | Fetched(doc: TitleDoc)

  /** The outcome of the browser session. The browser may fail to start,
      which happens before the guarded block and so raises out of the logo
      getter; inside the guarded block the session may fail (navigation
      error, the 15-second wait for a card logo timed out, or anything else
      raised), or it reaches the page and both queries return these `src`
      attributes. */
  datatype LogoSession =
    | LaunchFailed
    | SessionFailed
    | Rendered(cardSrcs: seq<Option<string>>, rowSrcs: seq<Option<string>>)

  // ---------------------------------------------------------------------
  // Genres
  // ---------------------------------------------------------------------

  /** The Genre value: a missing interests block gives the empty string,
      otherwise the non-empty chip texts joined by ", ". */
  function Genres(interests: Option<seq<string>>): (r: string)
    ensures interests.None? ==> r == ""
    ensures interests.Some? ==> r == Join(NonEmpty(interests.value), ", ")
    ensures r == "" <==> interests.None? || forall k :: 0 <= k < |interests.value| ==> interests.value[k] == ""
  {
    match interests
    case None => ""
    case Some(chips) =>
      var names := NonEmpty(chips);
      JoinEmptyIff(names, ", ");
      assert |names| > 0 <==> exists k :: 0 <= k < |chips| && chips[k] != "" by {
        if |names| > 0 { assert names[0] in names; }
        if exists k :: 0 <= k < |chips| && chips[k] != "" {
          var k :| 0 <= k < |chips| && chips[k] != "";
          assert chips[k] in names;
        }
      }
      Join(names, ", ")
  }

  // ---------------------------------------------------------------------
  // Label-selected link lists: languages, directors, writers
  // ---------------------------------------------------------------------

  /** The item has a label, and the label contains one of the keys. */
  predicate Selected(item: LabelledItem, keys: seq<string>) {
    item.labelText.Some? && exists k :: 0 <= k < |keys| && Contains(item.labelText.value, keys[k])
  }

  /** The non-empty link texts of the selected items, item after item. */
  function Collect(items: seq<LabelledItem>, keys: seq<string>): (r: seq<string>)
    ensures forall s :: s in r <==>
      s != "" && exists i :: 0 <= i < |items| && Selected(items[i], keys) && s in items[i].links
  {
    if |items| == 0 then []
    else
      var head := if Selected(items[0], keys) then NonEmpty(items[0].links) else [];
      var tail := Collect(items[1..], keys);
      assert forall i :: 1 <= i < |items| ==> items[i] == items[1..][i - 1];
      assert forall i :: 0 <= i < |items| - 1 ==> items[1..][i] == items[i + 1];
      head + tail
  }

  /** Collecting over a document split in two collects each part in turn:
      names keep document order. */
  lemma {:induction false} CollectAppend(a: seq<LabelledItem>, b: seq<LabelledItem>, keys: seq<string>)
    ensures Collect(a + b, keys) == Collect(a, keys) + Collect(b, keys)
    decreases |a|
  {
    if |a| == 0 {
      assert a + b == b;
    } else {
      assert (a + b)[1..] == a[1..] + b;
      CollectAppend(a[1..], b, keys);
    }
  }

  /** One item contributes its own non-empty links, in link order, when
      selected, and nothing otherwise. */
  lemma CollectOne(item: LabelledItem, keys: seq<string>)
    ensures Collect([item], keys) == if Selected(item, keys) then NonEmpty(item.links) else []
  {
    assert [item][1..] == [];
  }

  /** Unlabelled items contribute nothing, wherever they stand. */
  lemma UnlabelledContributesNothing(a: seq<LabelledItem>, links: seq<string>, b: seq<LabelledItem>, keys: seq<string>)
    ensures Collect(a + [LabelledItem(None, links)] + b, keys) == Collect(a + b, keys)
  {
    CollectAppend(a + [LabelledItem(None, links)], b, keys);
    CollectAppend(a, [LabelledItem(None, links)], keys);
    CollectAppend(a, b, keys);
  }

  /** At most one name per link of the document. */
  lemma {:induction false} CollectBound(items: seq<LabelledItem>, keys: seq<string>)
    ensures |Collect(items, keys)| <= LinkCount(items)
    decreases |items|
  {
    if |items| > 0 {
      CollectBound(items[1..], keys);
    }
  }

  function LinkCount(items: seq<LabelledItem>): nat {
    if |items| == 0 then 0 else |items[0].links| + LinkCount(items[1..])
  }

  const LanguageKeys: seq<string> := ["Language"]
  const DirectorKeys: seq<string> := ["Director"]
  const WriterKeys: seq<string> := ["Writer", "Writers"]

  /** A joined name list is empty exactly when no selected item has a
      non-empty link. */
  lemma JoinedCollectEmpty(items: seq<LabelledItem>, keys: seq<string>)
    ensures Join(Collect(items, keys), ", ") == "" <==>
      forall i, s :: 0 <= i < |items| && Selected(items[i], keys) && s in items[i].links ==> s == ""
  {
    var names := Collect(items, keys);
    JoinEmptyIff(names, ", ");
    if |names| > 0 { assert names[0] in names; }
  }

  /** The Languages value: a missing Details section gives the empty list,
      otherwise the non-empty links of every row labelled with "Language". */
  function Languages(details: Option<seq<LabelledItem>>): (r: Cell)
    ensures r == EmptyList <==> details.None?
    ensures details.Some? ==> r == Str(Join(Collect(details.value, LanguageKeys), ", "))
  {
    match details
    case None => EmptyList
    case Some(rows) => Str(Join(Collect(rows, LanguageKeys), ", "))
  }

  /** The Directors value: the non-empty links of every principal-credit
      block whose label contains "Director", joined by ", ". */
  function Directors(credits: seq<LabelledItem>): (r: string)
    ensures r == Join(Collect(credits, DirectorKeys), ", ")
    ensures r == "" <==>
      forall i, s :: 0 <= i < |credits| && Selected(credits[i], DirectorKeys) && s in credits[i].links ==> s == ""
  {
    JoinedCollectEmpty(credits, DirectorKeys);
    Join(Collect(credits, DirectorKeys), ", ")
  }

  /** The Writers value: blocks whose label contains "Writer" or "Writers". */
  function Writers(credits: seq<LabelledItem>): (r: string)
    ensures r == Join(Collect(credits, WriterKeys), ", ")
    ensures r == "" <==>
      forall i, s :: 0 <= i < |credits| && Selected(credits[i], WriterKeys) && s in credits[i].links ==> s == ""
  {
    JoinedCollectEmpty(credits, WriterKeys);
    Join(Collect(credits, WriterKeys), ", ")
  }

  /** The second writer key is redundant: any label containing "Writers"
      already contains "Writer". */
  lemma {:induction false} WritersKeyRedundant(credits: seq<LabelledItem>)
    ensures Collect(credits, WriterKeys) == Collect(credits, ["Writer"])
    decreases |credits|
  {
    if |credits| > 0 {
      var item := credits[0];
      if item.labelText.Some? && Contains(item.labelText.value, "Writers") {
        ContainsPrefix(item.labelText.value, "Writers", "Writer");
      }
      assert Selected(item, WriterKeys) <==> Selected(item, ["Writer"]) by {
        if Selected(item, WriterKeys) {
          var k :| 0 <= k < |WriterKeys| && Contains(item.labelText.value, WriterKeys[k]);
          assert Contains(item.labelText.value, ["Writer"][0]);
        }
        if Selected(item, ["Writer"]) {
          assert Contains(item.labelText.value, WriterKeys[0]);
        }
      }
      WritersKeyRedundant(credits[1..]);
    }
  }

  // ---------------------------------------------------------------------
  // Cast
  // ---------------------------------------------------------------------

  /** Python's `rows[:n]`: a negative `n` counts from the end. */
  function SliceTo<T>(rows: seq<T>, n: int): (r: seq<T>)
    ensures r <= rows
    ensures n >= 0 ==> |r| == if n <= |rows| then n else |rows|
    ensures n < 0 ==> |r| == if -n <= |rows| then |rows| + n else 0
  {
    if n >= 0 then (if n <= |rows| then rows[..n] else rows)
    else (if -n <= |rows| then rows[..|rows| + n] else [])
  }

  /** The actor names of the given rows: rows without an actor link, or with an
      empty name, are skipped. */
  function ActorNames(rows: seq<Option<string>>): (r: seq<string>)
    ensures |r| <= |rows|
    ensures forall s :: s in r <==> s != "" && Some(s) in rows
  {
    if |rows| == 0 then []
    else
      var tail := ActorNames(rows[1..]);
      assert forall x :: x in rows <==> x == rows[0] || x in rows[1..];
      if rows[0].Some? && rows[0].value != "" then [rows[0].value] + tail else tail
  }

  /** Actor names over consecutive runs of rows are the names of each run in
      turn: names keep row order, once per row. */
  lemma {:induction false} ActorNamesAppend(a: seq<Option<string>>, b: seq<Option<string>>)
    ensures ActorNames(a + b) == ActorNames(a) + ActorNames(b)
    decreases |a|
  {
    if |a| == 0 {
      assert a + b == b;
    } else {
      assert (a + b)[0] == a[0] && (a + b)[1..] == a[1..] + b;
      ActorNamesAppend(a[1..], b);
    }
  }

  /** The names the cast getter collects with `top_n = n`. */
  function CastNames(rows: seq<Option<string>>, n: int): (r: seq<string>)
    ensures n >= 0 ==> |r| <= n
    ensures forall s :: s in r ==> s != "" && Some(s) in rows
    ensures forall s :: s in r <==> s != "" && Some(s) in SliceTo(rows, n)
  {
    ActorNames(SliceTo(rows, n))
  }

  /** Only the first `n` rows are examined: rows after them never contribute,
      even when earlier rows are skipped. */
  lemma CastIgnoresLaterRows(rows: seq<Option<string>>, later: seq<Option<string>>, n: int)
    requires 0 <= n <= |rows|
    ensures CastNames(rows + later, n) == CastNames(rows, n)
  {
    assert SliceTo(rows + later, n) == SliceTo(rows, n);
  }

  /** The Cast value: a missing cast section gives the empty list, otherwise
      the collected names joined by ", ". */
  function Cast(castRows: Option<seq<Option<string>>>, n: int): (r: Cell)
    ensures r == EmptyList <==> castRows.None?
    ensures castRows.Some? ==> r == Str(Join(CastNames(castRows.value, n), ", "))
  {
    match castRows
    case None => EmptyList
    case Some(rows) => Str(Join(CastNames(rows, n), ", "))
  }

  // ---------------------------------------------------------------------
  // Poster
  // ---------------------------------------------------------------------

  /** The resize and quality markers that trigger the high-resolution rewrite. */
  predicate HasResizeMarker(src: string) {
    Contains(src, "_UX") || Contains(src, "_UY") || Contains(src, "_QL")
  }

  /** The high-resolution rewrite of a poster `src`: when a marker is present,
      the last "_"-separated segment is dropped and ".jpg" appended. Only that
      last segment goes; earlier markers stay. */
  function HdPosterUrl(src: string): (r: string)
    ensures !HasResizeMarker(src) ==> r == src
    ensures HasResizeMarker(src) ==>
      var k := LastIndexOf(src, '_');
      k >= 0 && r == src[..k] + ".jpg"
    ensures HasResizeMarker(src) ==> Count(r, '_') + 1 == Count(src, '_')
  {
    if HasResizeMarker(src) then
      var parts := Split(src, '_');
      MarkerHasUnderscore(src);
      LastSegmentDropped(src);
      Join(parts[..|parts| - 1], "_") + ".jpg"
    else
      src
  }

  lemma MarkerHasUnderscore(src: string)
    requires HasResizeMarker(src)
    ensures '_' in src
  {
    if Contains(src, "_UX") { ContainsChar(src, "_UX", 0); }
    else if Contains(src, "_UY") { ContainsChar(src, "_UY", 0); }
    else { ContainsChar(src, "_QL", 0); }
  }

  /** Dropping the last piece of `src.split("_")` and re-joining leaves the
      text before the last underscore, which holds one underscore fewer. */
  lemma LastSegmentDropped(src: string)
    requires '_' in src
    ensures var parts := Split(src, '_');
      var k := LastIndexOf(src, '_');
      && Join(parts[..|parts| - 1], "_") == src[..k]
      && Count(src[..k] + ".jpg", '_') + 1 == Count(src, '_')
  {
    var k := LastIndexOf(src, '_');
    var a, b := src[..k], src[k + 1..];
    assert src == a + ['_'] + b;
    assert '_' !in b;
    var parts := Split(src, '_');
    assert parts == Split(a, '_') + [b];
    assert parts[..|parts| - 1] == Split(a, '_');
    JoinSplit(a, '_');
    CountAppend(a, ".jpg", '_');
    CountAppend(a + ['_'], b, '_');
    CountAppend(a, ['_'], '_');
  }

  /** Any marker ending before the last underscore survives the rewrite. */
  lemma EarlierMarkerSurvives(src: string, marker: string, i: nat)
    requires HasResizeMarker(src) && OccursAt(src, marker, i)
    requires i + |marker| <= LastIndexOf(src, '_')
    ensures Contains(HdPosterUrl(src), marker)
  {
    var r := HdPosterUrl(src);
    var k := LastIndexOf(src, '_');
    assert r[i..i + |marker|] == src[i..i + |marker|];
    assert OccursAt(r, marker, i);
  }

  /** A worked instance: `xyz_QL75_UY281_.jpg` becomes `xyz_QL75_UY281.jpg`,
      which still carries both markers. */
  lemma PosterRewriteExample()
    ensures HdPosterUrl("xyz_QL75_UY281_.jpg") == "xyz_QL75_UY281.jpg"
    ensures Contains(HdPosterUrl("xyz_QL75_UY281_.jpg"), "_QL")
    ensures Contains(HdPosterUrl("xyz_QL75_UY281_.jpg"), "_UY")
  {
    var r := "xyz_QL75_UY281.jpg";
    assert r[3..6] == "_QL";
    assert r[8..11] == "_UY";
    PosterExampleValue();
  }

  /** The rewrite of the worked instance, computed step by step. */
  lemma PosterExampleValue()
    ensures HdPosterUrl("xyz_QL75_UY281_.jpg") == "xyz_QL75_UY281.jpg"
  {
    var src := "xyz_QL75_UY281_.jpg";
    assert OccursAt(src, "_QL", 3);
    var k := LastIndexOf(src, '_');
    assert src[14] == '_';
    assert src[15] != '_' && src[16] != '_' && src[17] != '_' && src[18] != '_';
    assert k == 14;
    assert src[..14] + ".jpg" == "xyz_QL75_UY281.jpg";
  }

  /** The Poster value: the empty string when the poster block or its image is
      missing, otherwise the stripped `src` (empty when absent) after the
      high-resolution rewrite. */
  function Poster(block: PosterBlock): (r: string)
    ensures !block.PosterImg? ==> r == ""
    ensures block.PosterImg? ==>
      var src := Strip(block.src.GetOr(""));
      (!HasResizeMarker(src) ==> r == src) && (HasResizeMarker(src) ==> |r| >= 4 && r[|r| - 4..] == ".jpg")
  {
    match block
    case NoPosterDiv => ""
    case NoPosterImg => ""
    case PosterImg(src) => HdPosterUrl(Strip(src.GetOr("")))
  }

  // ---------------------------------------------------------------------
  // Streaming logos
  // ---------------------------------------------------------------------

  /** The logo `src`s kept by the collection loop over `srcs`: each non-empty
      value the first time it is seen. */
  function Dedup(srcs: seq<Option<string>>): (r: seq<string>)
    ensures NoDuplicates(r)
    ensures forall s :: s in r <==> s != "" && Some(s) in srcs
  {
    if |srcs| == 0 then []
    else
      var init := srcs[..|srcs| - 1];
      var prev := Dedup(init);
      var last := srcs[|srcs| - 1];
      assert srcs == init + [last];
      if last.Some? && last.value != "" && last.value !in prev then prev + [last.value] else prev
  }

  /** Position of the first occurrence of `v` in `xs`. */
  function FirstIndex<T(==)>(xs: seq<T>, v: T): (k: nat)
    requires v in xs
    ensures k < |xs| && xs[k] == v
    ensures forall j :: 0 <= j < k ==> xs[j] != v
  {
    if xs[0] == v then 0 else 1 + FirstIndex(xs[1..], v)
  }

  lemma FirstIndexExtend<T>(xs: seq<T>, y: T, v: T)
    requires v in xs
    ensures FirstIndex(xs + [y], v) == FirstIndex(xs, v)
  {
    var k, k' := FirstIndex(xs, v), FirstIndex(xs + [y], v);
    assert (xs + [y])[k] == v;
    assert forall j :: 0 <= j < k ==> (xs + [y])[j] == xs[j];
  }

  /** Every value of `r` occurs in `srcs`, and earlier values of `r` occur
      first earlier: `r` picks each value at its first occurrence, so it is a
      subsequence of `srcs`. */
  predicate InFirstOccurrenceOrder(r: seq<string>, srcs: seq<Option<string>>) {
    forall i, j :: 0 <= i < j < |r| ==>
      Some(r[i]) in srcs && Some(r[j]) in srcs && FirstIndex(srcs, Some(r[i])) < FirstIndex(srcs, Some(r[j]))
  }

  /** Appending to the input keeps the order of the values already kept. */
  lemma OrderExtend(r: seq<string>, xs: seq<Option<string>>, y: Option<string>)
    requires InFirstOccurrenceOrder(r, xs)
    requires forall i :: 0 <= i < |r| ==> Some(r[i]) in xs
    ensures InFirstOccurrenceOrder(r, xs + [y])
    ensures forall i :: 0 <= i < |r| ==> Some(r[i]) in xs + [y]
  {
    forall i | 0 <= i < |r|
      ensures FirstIndex(xs + [y], Some(r[i])) == FirstIndex(xs, Some(r[i]))
    {
      FirstIndexExtend(xs, y, Some(r[i]));
    }
  }

  /** A value first seen at the end of the input goes after every value
      already kept. */
  lemma OrderAppend(r: seq<string>, xs: seq<Option<string>>, v: string)
    requires InFirstOccurrenceOrder(r, xs)
    requires forall i :: 0 <= i < |r| ==> Some(r[i]) in xs
    requires Some(v) !in xs
    ensures InFirstOccurrenceOrder(r + [v], xs + [Some(v)])
  {
    var ys := xs + [Some(v)];
    OrderExtend(r, xs, Some(v));
    assert forall j :: 0 <= j < |xs| ==> ys[j] == xs[j];
    assert FirstIndex(ys, Some(v)) == |xs|;
    var r' := r + [v];
    forall i, j | 0 <= i < j < |r'|
      ensures FirstIndex(ys, Some(r'[i])) < FirstIndex(ys, Some(r'[j]))
    {
      assert r'[i] == r[i];
      if j < |r| {
        assert r'[j] == r[j];
      }
    }
  }

  /** The collected `src`s appear in the order of their first occurrence in
      the input, so the result is a subsequence of the input. */
  lemma {:induction false} DedupFirstOccurrenceOrder(srcs: seq<Option<string>>)
    ensures InFirstOccurrenceOrder(Dedup(srcs), srcs)
    decreases |srcs|
  {
    if |srcs| > 0 {
      var init := srcs[..|srcs| - 1];
      var last := srcs[|srcs| - 1];
      var prev := Dedup(init);
      assert srcs == init + [last];
      DedupFirstOccurrenceOrder(init);
      assert forall i :: 0 <= i < |prev| ==> Some(prev[i]) in init by {
        forall i | 0 <= i < |prev| ensures Some(prev[i]) in init {
          assert prev[i] in prev;
        }
      }
      if last.Some? && last.value != "" && last.value !in prev {
        OrderAppend(prev, init, last.value);
      } else {
        OrderExtend(prev, init, last);
      }
    }
  }

  /** The value of the logo getter: `None` when the browser could not be
      started (the getter raises), otherwise `url1 | url2 | ...`, which is
      the empty string when the session failed or no image carried a
      non-empty `src`. */
  function LogoField(session: LogoSession): (r: Option<string>)
    ensures r.None? <==> session.LaunchFailed?
    ensures r == Some("") <==>
      session.SessionFailed? || (session.Rendered? && forall x :: x in session.cardSrcs + session.rowSrcs ==> x.None? || x.value == "")
  {
    match session
    case LaunchFailed => None
    case SessionFailed => Some("")
    case Rendered(cards, rows) =>
      var srcs := Dedup(cards + rows);
      JoinEmptyIff(srcs, " | ");
      assert |srcs| > 0 ==> srcs[0] in srcs;
      if |cards + rows| == 0 then Some("") else Some(Join(srcs, " | "))
  }

  /** The logo getter over a session: the collection loop keeps each image's
      `src` when it is non-empty and not yet kept, then joins the kept values
      with " | ". */
  method StreamingLogoUrl(session: LogoSession) returns (joined: Option<string>)
    ensures joined == LogoField(session)
  {
    if session.LaunchFailed? {
      return None;
    }
    if session.SessionFailed? {
      return Some("");
    }
    var allImgs := session.cardSrcs + session.rowSrcs;
    if |allImgs| == 0 {
      return Some("");
    }
    var srcs: seq<string> := [];
    var i := 0;
    while i < |allImgs|
      invariant 0 <= i <= |allImgs|
      invariant srcs == Dedup(allImgs[..i])
    {
      var src := allImgs[i];
      assert allImgs[..i + 1] == allImgs[..i] + [src];
      if src.Some? && src.value != "" && src.value !in srcs {
        srcs := srcs + [src.value];
      }
      i := i + 1;
    }
    assert allImgs[..i] == allImgs;
    joined := Some(Join(srcs, " | "));
  }

  // ---------------------------------------------------------------------
  // The record
  // ---------------------------------------------------------------------

  /** Everything one title page yields. */
  datatype TitleData = TitleData(
    imdbId: string,
    url: string,
    genres: string,
    languages: Cell,
    directors: string,
    writers: string,
    cast: Cell,
    posterUrl: string,
    streamingLogos: string)

  /** The record of a fetched page and the joined logo list, the extractors
      run in the getter order. */
  function Record(id: string, doc: TitleDoc, logos: string): TitleData {
    TitleData(id, TitleUrl(id), Genres(doc.interests), Languages(doc.details),
              Directors(doc.principalCredits), Writers(doc.principalCredits),
              Cast(doc.castRows, CastTopN), Poster(doc.poster), logos)
  }

  /** Errors that abort an enrichment pass before it returns a table. */
  datatype EnrichError =
    | MissingColumn(column: string)   // the identifier column is absent
    | FetchFailed(url: string)        // a title page could not be fetched
    | BrowserFailed(url: string)      // the browser for a title's logos did not start

  /** The aggregate getter. The page is fetched from the title URL and a
      failed fetch raises out of the first extractor; then the browser
      session is opened on the same URL, and a browser that cannot be
      started raises too. */
  function ExtractAll(id: string, fetch: string -> PageResponse, render: string -> LogoSession): (r: Result<TitleData, EnrichError>)
    ensures r.Failure? <==> fetch(TitleUrl(id)).HttpError? || render(TitleUrl(id)).LaunchFailed?
    ensures fetch(TitleUrl(id)).HttpError? ==> r == Failure(FetchFailed(TitleUrl(id)))
    ensures fetch(TitleUrl(id)).Fetched? && render(TitleUrl(id)).LaunchFailed? ==> r == Failure(BrowserFailed(TitleUrl(id)))
    ensures r.Success? ==> r.value.imdbId == id && TitleIdOf(r.value.url) == Some(id)
  {
    var url := TitleUrl(id);
    TitleUrlRoundTrip(id, url);
    match fetch(url)
    case HttpError => Failure(FetchFailed(url))
    case Fetched(doc) =>
      match LogoField(render(url))
      case None => Failure(BrowserFailed(url))
      case Some(logos) => Success(Record(id, doc, logos))
  }
}

=== FILE: scraper.dfy ===
/** The first enrichment pass: one title page per row, its fields written into
    new columns of the same table. */
module Scraper {
  import opened Wrappers
  import opened Text
  import opened Frame
  import opened ImdbPage

  /** The identifier column the pass reads. */
  const IdColumn := "Const"

  /** The columns the pass assigns, in assignment order: the page URL, the six
      getter columns, the logo column. */
  const NewColumns: seq<string> := ["IMDB URL", "Genre", "Languages", "Directors", "Writers", "Cast", "Poster", "StreamingLogo"]

  /** The number of new columns. */
  const FieldCount := 8

  /** The cells one record contributes, aligned with `NewColumns`. */
  function RowCells(d: TitleData): (cells: seq<Cell>)
    ensures |cells| == FieldCount
  {
    [Str(d.url), Str(d.genres), d.languages, Str(d.directors), Str(d.writers), d.cast, Str(d.posterUrl), Str(d.streamingLogos)]
  }

  /** The identifiers of the rows, each as `str(value).strip()`. */
  function RowIds(t: Table): (ids: seq<string>)
    requires Valid(t) && IdColumn in t.columns
    ensures |ids| == t.height
    ensures forall i :: 0 <= i < t.height ==> ids[i] == Strip(CellStr(t.columns[IdColumn][i]))
  {
    seq(t.height, i requires 0 <= i < t.height => Strip(CellStr(t.columns[IdColumn][i])))
  }

  /** The eight column names are distinct: their first letters differ. */
  lemma NewColumnsDistinct()
    ensures |NewColumns| == FieldCount && NoDuplicates(NewColumns)
  {
    var initials := seq(|NewColumns|, k requires 0 <= k < |NewColumns| => NewColumns[k][0]);
    assert initials == "IGLDWCPS";
    forall a, b | 0 <= a < b < |NewColumns| ensures NewColumns[a] != NewColumns[b] {
      assert initials[a] != initials[b];
    }
  }

  /** Column `k` of the new columns, one cell per record. */
  function ColumnOf(records: seq<TitleData>, k: nat): (col: seq<Cell>)
    requires k < FieldCount
    ensures |col| == |records|
    ensures forall i :: 0 <= i < |records| ==> col[i] == RowCells(records[i])[k]
  {
    seq(|records|, i requires 0 <= i < |records| => RowCells(records[i])[k])
  }

  /** All new columns, one cell per record in each. */
  function NewColumnCells(records: seq<TitleData>): (cols: seq<seq<Cell>>)
    ensures |cols| == FieldCount
    ensures forall k :: 0 <= k < FieldCount ==> cols[k] == ColumnOf(records, k)
  {
    seq(FieldCount, k requires 0 <= k < FieldCount => ColumnOf(records, k))
  }

  /** The cells of row `i` in the columns `names`, in order. */
  function CellsOf(out: Table, names: seq<string>, i: int): (cells: seq<Cell>)
    requires Valid(out) && 0 <= i < out.height
    requires forall k :: 0 <= k < |names| ==> names[k] in out.columns
    ensures |cells| == |names|
    ensures forall k :: 0 <= k < |names| ==> cells[k] == out.columns[names[k]][i]
  {
    seq(|names|, k requires 0 <= k < |names| => out.columns[names[k]][i])
  }

  /** Assigns the new columns under the given distinct names, in order;
      every other column keeps its cells. */
  function Assemble(t: Table, names: seq<string>, records: seq<TitleData>): (r: Table)
    requires Valid(t) && |records| == t.height && |names| == FieldCount && NoDuplicates(names)
    ensures Valid(r) && r.height == t.height && t.header <= r.header
    ensures forall n :: n in t.columns && n !in names ==> n in r.columns && r.columns[n] == t.columns[n]
    ensures forall k :: 0 <= k < |names| ==> names[k] in r.columns && r.columns[names[k]] == ColumnOf(records, k)
    ensures r.columns.Keys == t.columns.Keys + set n | n in names
  {
    var cols := NewColumnCells(records);
    SetColumnsKeys(t, names, cols);
    SetColumnsAssigns(t, names, cols);
    SetColumnsKeeps(t, names, cols);
    SetColumnsHeader(t, names, cols);
    SetColumns(t, names, cols)
  }

  /** Row `i` of the assembled columns holds the cells of record `i`. */
  lemma AssembledRow(t: Table, names: seq<string>, records: seq<TitleData>, i: int)
    requires Valid(t) && |records| == t.height && |names| == FieldCount && NoDuplicates(names)
    requires 0 <= i < t.height
    ensures CellsOf(Assemble(t, names, records), names, i) == RowCells(records[i])
  {
    var cells := CellsOf(Assemble(t, names, records), names, i);
    assert forall k :: 0 <= k < FieldCount ==> cells[k] == ColumnOf(records, k)[i];
  }

  /** The first `|records|` rows of `ids` extract to `records`, row by row. */
  predicate ExtractedUpTo(ids: seq<string>, records: seq<TitleData>, fetch: string -> PageResponse, render: string -> LogoSession) {
    |records| <= |ids| && forall i :: 0 <= i < |records| ==> ExtractAll(ids[i], fetch, render) == Success(records[i])
  }

  /** Every row of `ids` extracts, to the record of the same position. */
  predicate RowsExtracted(ids: seq<string>, records: seq<TitleData>, fetch: string -> PageResponse, render: string -> LogoSession) {
    |records| == |ids| && ExtractedUpTo(ids, records, fetch, render)
  }

  /** Every row of `ids` extracts. */
  predicate AllRowsExtract(ids: seq<string>, fetch: string -> PageResponse, render: string -> LogoSession) {
    forall i :: 0 <= i < |ids| ==> ExtractAll(ids[i], fetch, render).Success?
  }

  /** Request `j` is the title URL of row `j`. */
  predicate RequestedInOrder(ids: seq<string>, requested: seq<string>) {
    |requested| <= |ids| && forall j :: 0 <= j < |requested| ==> requested[j] == TitleUrl(ids[j])
  }

  /** The row loop stopped at its last request: every earlier row extracted,
      and the row of the last request raised `e`. */
  predicate AbortedAt(ids: seq<string>, requested: seq<string>, e: EnrichError, fetch: string -> PageResponse, render: string -> LogoSession) {
    && 0 < |requested| <= |ids|
    && (forall j :: 0 <= j < |requested| - 1 ==> ExtractAll(ids[j], fetch, render).Success?)
    && ExtractAll(ids[|requested| - 1], fetch, render) == Failure(e)
  }

  /** The row loop: for each identifier in turn the title URL is requested and
      the record extracted; the first row that raises stops the loop. */
  method FetchRecords(ids: seq<string>, fetch: string -> PageResponse, render: string -> LogoSession)
    returns (r: Result<seq<TitleData>, EnrichError>, requested: seq<string>)
    ensures RequestedInOrder(ids, requested)
    ensures r.Success? ==> |requested| == |ids| && RowsExtracted(ids, r.value, fetch, render)
    ensures r.Failure? ==> AbortedAt(ids, requested, r.error, fetch, render)
  {
    var records: seq<TitleData> := [];
    requested := [];
    while |records| < |ids|
      invariant |requested| == |records|
      invariant ExtractedUpTo(ids, records, fetch, render)
      invariant RequestedInOrder(ids, requested)
      decreases |ids| - |records|
    {
      var i := |records|;
      RequestedStep(ids, requested);
      requested := requested + [TitleUrl(ids[i])];
      var record := ExtractAll(ids[i], fetch, render);
      if record.Failure? {
        AbortedStep(ids, records, requested, record.error, fetch, render);
        return Failure(record.error), requested;
      }
      ExtractedStep(ids, records, record.value, fetch, render);
      records := records + [record.value];
    }
    r := Success(records);
  }

  /** Requesting the next row's URL keeps the requests in row order. */
  lemma RequestedStep(ids: seq<string>, requested: seq<string>)
    requires RequestedInOrder(ids, requested) && |requested| < |ids|
    ensures RequestedInOrder(ids, requested + [TitleUrl(ids[|requested|])])
  {
  }

  /** A row that extracts extends the extracted prefix by its record. */
  lemma ExtractedStep(ids: seq<string>, records: seq<TitleData>, d: TitleData, fetch: string -> PageResponse, render: string -> LogoSession)
    requires ExtractedUpTo(ids, records, fetch, render) && |records| < |ids|
    requires ExtractAll(ids[|records|], fetch, render) == Success(d)
    ensures ExtractedUpTo(ids, records + [d], fetch, render)
  {
  }

  /** A row that raises after an extracted prefix is where the loop aborts. */
  lemma AbortedStep(ids: seq<string>, records: seq<TitleData>, requested: seq<string>, e: EnrichError, fetch: string -> PageResponse, render: string -> LogoSession)
    requires ExtractedUpTo(ids, records, fetch, render) && |records| < |ids|
    requires |requested| == |records| + 1
    requires ExtractAll(ids[|records|], fetch, render) == Failure(e)
    ensures AbortedAt(ids, requested, e, fetch, render)
  {
  }

  /** A loop that stopped did so because of its last request: either that
      page could not be fetched, or it was fetched and the browser for its
      logos did not start. */
  lemma AbortCause(ids: seq<string>, requested: seq<string>, e: EnrichError, fetch: string -> PageResponse, render: string -> LogoSession)
    requires RequestedInOrder(ids, requested) && AbortedAt(ids, requested, e, fetch, render)
    ensures var url := requested[|requested| - 1];
      || (e == FetchFailed(url) && fetch(url).HttpError?)
      || (e == BrowserFailed(url) && fetch(url).Fetched? && render(url).LaunchFailed?)
    ensures forall j :: 0 <= j < |requested| - 1 ==> fetch(requested[j]).Fetched? && !render(requested[j]).LaunchFailed?
  {
    var k := |requested| - 1;
    assert requested[k] == TitleUrl(ids[k]);
    forall j | 0 <= j < k
      ensures fetch(requested[j]).Fetched? && !render(requested[j]).LaunchFailed?
    {
      assert requested[j] == TitleUrl(ids[j]);
      assert ExtractAll(ids[j], fetch, render).Success?;
    }
  }

  /** Every row extracts exactly when the loop runs to the end. */
  lemma AbortedMeansSomeRowRaises(ids: seq<string>, requested: seq<string>, e: EnrichError, fetch: string -> PageResponse, render: string -> LogoSession)
    requires AbortedAt(ids, requested, e, fetch, render)
    ensures !AllRowsExtract(ids, fetch, render)
  {
    var k := |requested| - 1;
    assert !ExtractAll(ids[k], fetch, render).Success?;
  }

  /** The table the pass returns when the rows with identifiers `ids` all
      extracted: the columns `names` assigned from the records, every other
      column untouched. */
  predicate Filled(t: Table, ids: seq<string>, names: seq<string>, out: Table, fetch: string -> PageResponse, render: string -> LogoSession)
    requires |ids| == t.height
  {
    && Valid(out) && out.height == t.height && t.header <= out.header
    && (forall n :: n in t.columns && n !in names ==> n in out.columns && out.columns[n] == t.columns[n])
    && (forall k :: 0 <= k < |names| ==> names[k] in out.columns)
    && (forall n :: n in out.columns ==> n in t.columns || n in names)
    && forall i :: 0 <= i < t.height ==>
         && ExtractAll(ids[i], fetch, render).Success?
         && CellsOf(out, names, i) == RowCells(ExtractAll(ids[i], fetch, render).value)
  }

  /** Assembling the extracted records fills the table row by row. */
  lemma AssembledFilled(t: Table, ids: seq<string>, names: seq<string>, records: seq<TitleData>, fetch: string -> PageResponse, render: string -> LogoSession)
    requires Valid(t) && |ids| == t.height && RowsExtracted(ids, records, fetch, render)
    requires |names| == FieldCount && NoDuplicates(names)
    ensures Filled(t, ids, names, Assemble(t, names, records), fetch, render)
    ensures AllRowsExtract(ids, fetch, render)
  {
    var out := Assemble(t, names, records);
    forall i | 0 <= i < t.height
      ensures ExtractAll(ids[i], fetch, render) == Success(records[i])
      ensures CellsOf(out, names, i) == RowCells(records[i])
    {
      AssembledRow(t, names, records, i);
    }
  }

  /** The row pass over the identifiers `ids`, one per row: every row's title
      page is requested in row order, the first row that raises aborts the
      pass, and when every row extracts the eight new columns are set from
      the records. */
  method EnrichRows(t: Table, ids: seq<string>, fetch: string -> PageResponse, render: string -> LogoSession)
    returns (r: Result<Table, EnrichError>, requested: seq<string>)
    requires Valid(t) && |ids| == t.height
    ensures RequestedInOrder(ids, requested)
    ensures r.Success? <==> AllRowsExtract(ids, fetch, render)
    ensures r.Failure? ==> AbortedAt(ids, requested, r.error, fetch, render)
    ensures r.Success? ==> |requested| == |ids| && Filled(t, ids, NewColumns, r.value, fetch, render)
  {
    var records;
    records, requested := FetchRecords(ids, fetch, render);
    if records.Failure? {
      AbortedMeansSomeRowRaises(ids, requested, records.error, fetch, render);
      return Failure(records.error), requested;
    }
    NewColumnsDistinct();
    AssembledFilled(t, ids, NewColumns, records.value, fetch, render);
    r := Success(Assemble(t, NewColumns, records.value));
  }

  /** The first pass of the scraper: a missing identifier column is an error
      before any request; otherwise the row pass runs over the identifiers
      `str(value).strip()` of the identifier column. */
  method EnrichDataframe(t: Table, fetch: string -> PageResponse, render: string -> LogoSession)
    returns (r: Result<Table, EnrichError>, requested: seq<string>)
    requires Valid(t)
    ensures IdColumn !in t.columns ==> r == Failure(MissingColumn(IdColumn)) && requested == []
    ensures IdColumn in t.columns ==> RequestedInOrder(RowIds(t), requested)
    ensures IdColumn in t.columns ==>
      (r.Success? <==> AllRowsExtract(RowIds(t), fetch, render))
    ensures IdColumn in t.columns && r.Failure? ==> AbortedAt(RowIds(t), requested, r.error, fetch, render)
    ensures r.Success? ==> IdColumn in t.columns && |requested| == t.height && Filled(t, RowIds(t), NewColumns, r.value, fetch, render)
  {
    if IdColumn !in t.columns {
      return Failure(MissingColumn(IdColumn)), [];
    }
    r, requested := EnrichRows(t, RowIds(t), fetch, render);
  }

  /** Row `i` of the "IMDB URL" column is the base URL, the stripped
      identifier of row `i`, and a slash. */
  lemma UrlColumn(t: Table, out: Table, fetch: string -> PageResponse, render: string -> LogoSession, i: int)
    requires Valid(t) && IdColumn in t.columns && Filled(t, RowIds(t), NewColumns, out, fetch, render) && 0 <= i < t.height
    ensures "IMDB URL" in out.columns
    ensures out.columns["IMDB URL"][i] == Str(BaseUrl + Strip(CellStr(t.columns[IdColumn][i])) + "/")
  {
    assert NewColumns[0] == "IMDB URL";
    assert CellsOf(out, NewColumns, i)[0] == out.columns["IMDB URL"][i];
  }

  /** Each Cast cell names at most five actors: the scraper always asks for
      the top five rows. */
  lemma CastAtMostFive(id: string, doc: TitleDoc, logos: string)
    ensures doc.castRows.None? ==> Record(id, doc, logos).cast == EmptyList
    ensures doc.castRows.Some? ==>
      var names := CastNames(doc.castRows.value, CastTopN);
      Record(id, doc, logos).cast == Str(Join(names, ", ")) && |names| <= 5
  {
  }
}

=== FILE: text.dfy ===
/** String operations the scraper borrows from Python's `str`: `strip`, `in`,
    `join` and `split`, plus the counting and searching helpers their
    properties are stated with. Strings are sequences of characters. */
module Text {

  /** Python's `str.isspace` for one character: the characters `str.strip()`
      removes when called without arguments. */
  predicate IsSpace(c: char) {
    || ('\U{0009}' <= c <= '\U{000D}')
    || ('\U{001C}' <= c <= '\U{0020}')
    || c == '\U{0085}' || c == '\U{00A0}' || c == '\U{1680}'
    || ('\U{2000}' <= c <= '\U{200A}')
    || c == '\U{2028}' || c == '\U{2029}' || c == '\U{202F}' || c == '\U{205F}'
    || c == '\U{3000}'
  }

  /** Drops the leading whitespace: the result is the suffix of `s` that starts
      at its first non-space character. */
  function TrimStart(s: string): (r: string)
    ensures |r| <= |s| && r == s[|s| - |r|..]
    ensures forall k :: 0 <= k < |s| - |r| ==> IsSpace(s[k])
    ensures r == [] || !IsSpace(r[0])
  {
    if |s| > 0 && IsSpace(s[0]) then TrimStart(s[1..]) else s
  }

  /** Drops the trailing whitespace: the result is the prefix of `s` that ends
      at its last non-space character. */
  function TrimEnd(s: string): (r: string)
    ensures |r| <= |s| && r == s[..|r|]
    ensures forall k :: |r| <= k < |s| ==> IsSpace(s[k])
    ensures r == [] || !IsSpace(r[|r| - 1])
  {
    if |s| > 0 && IsSpace(s[|s| - 1]) then TrimEnd(s[..|s| - 1]) else s
  }

  /** Neither end of `s` is whitespace. */
  predicate Unpadded(s: string) {
    s == [] || (!IsSpace(s[0]) && !IsSpace(s[|s| - 1]))
  }

  /** Python's `s.strip()`. */
  function Strip(s: string): (r: string)
    ensures |r| <= |s|
    ensures Unpadded(r)
  {
    TrimEnd(TrimStart(s))
  }

  predicate AllSpace(s: string) {
    forall k :: 0 <= k < |s| ==> IsSpace(s[k])
  }

  /** `TrimStart` removes exactly a leading run of whitespace that is
      followed by a non-space character or by nothing. */
  lemma TrimStartPadding(before: string, rest: string)
    requires AllSpace(before)
    requires rest == [] || !IsSpace(rest[0])
    ensures TrimStart(before + rest) == rest
  {
    var s := before + rest;
    var a := TrimStart(s);
    assert forall k :: 0 <= k < |before| ==> s[k] == before[k];
    if rest != [] {
      assert s[|before|] == rest[0];
    }
    assert a == s[|before|..];
  }

  /** `TrimEnd` removes exactly a trailing run of whitespace that follows a
      non-space character. */
  lemma TrimEndPadding(core: string, after: string)
    requires AllSpace(after)
    requires core != [] && !IsSpace(core[|core| - 1])
    ensures TrimEnd(core + after) == core
  {
    var s := core + after;
    var b := TrimEnd(s);
    assert forall k :: |core| <= k < |s| ==> s[k] == after[k - |core|];
    assert s[|core| - 1] == core[|core| - 1];
    assert b == s[..|core|];
  }

  /** `Strip` removes exactly the whitespace around the core of a string:
      whatever the padding, the core comes back unchanged. */
  lemma StripPadding(before: string, core: string, after: string)
    requires AllSpace(before) && AllSpace(after)
    requires Unpadded(core)
    ensures Strip(before + core + after) == core
  {
    var s := before + core + after;
    if core == [] {
      assert AllSpace(s) by {
        forall k | 0 <= k < |s| ensures IsSpace(s[k]) {
          if k < |before| { assert s[k] == before[k]; } else { assert s[k] == after[k - |before|]; }
        }
      }
      AllSpaceTrims(s);
    } else {
      assert s == before + (core + after);
      TrimStartPadding(before, core + after);
      TrimEndPadding(core, after);
    }
  }

  lemma AllSpaceTrims(s: string)
    requires AllSpace(s)
    ensures Strip(s) == []
  {
    assert TrimStart(s) == [];
  }

  /** The strings `strip` leaves alone are exactly the unpadded ones. */
  lemma UnpaddedIffStripped(s: string)
    ensures Unpadded(s) <==> Strip(s) == s
  {
    if Unpadded(s) {
      StripPadding([], s, []);
      assert [] + s + [] == s;
    }
  }

  /** Stripping twice is stripping once. */
  lemma StripIdempotent(s: string)
    ensures Strip(Strip(s)) == Strip(s)
  {
    var r := Strip(s);
    StripPadding([], r, []);
    assert [] + r + [] == r;
  }

  /** `sub` occurs in `s` starting at index `i`. */
  predicate OccursAt(s: string, sub: string, i: nat) {
    i + |sub| <= |s| && s[i..i + |sub|] == sub
  }

  /** Python's `sub in s`, by scanning the start positions left to right. */
  function Contains(s: string, sub: string): (b: bool)
    ensures b <==> exists i: nat :: OccursAt(s, sub, i)
    decreases |s|
  {
    if sub <= s then
      assert OccursAt(s, sub, 0);
      true
    else if |s| == 0 then
      false
    else
      ContainsShift(s, sub);
      Contains(s[1..], sub)
  }

  /** Occurrences past the first position are the tail's occurrences,
      shifted by one. */
  lemma OccursShift(s: string, sub: string, i: nat)
    requires |s| > 0
    ensures OccursAt(s, sub, i + 1) <==> OccursAt(s[1..], sub, i)
  {
    if i + 1 + |sub| <= |s| {
      assert s[i + 1..i + 1 + |sub|] == s[1..][i..i + |sub|];
    }
  }

  /** An occurrence past the first position is an occurrence in the tail. */
  lemma ContainsShift(s: string, sub: string)
    requires |s| > 0 && !(sub <= s)
    ensures (exists i: nat :: OccursAt(s, sub, i)) <==> (exists i: nat :: OccursAt(s[1..], sub, i))
  {
    if exists i: nat :: OccursAt(s, sub, i) {
      var i: nat :| OccursAt(s, sub, i);
      assert i != 0;
      OccursShift(s, sub, i - 1);
    }
    if exists i: nat :: OccursAt(s[1..], sub, i) {
      var i: nat :| OccursAt(s[1..], sub, i);
      OccursShift(s, sub, i);
    }
  }

  /** Every character of a contained string is a character of the container. */
  lemma ContainsChar(s: string, sub: string, j: nat)
    requires Contains(s, sub) && j < |sub|
    ensures sub[j] in s
  {
    var i: nat :| OccursAt(s, sub, i);
    assert s[i + j] == s[i..i + |sub|][j];
  }

  /** Whoever contains a string contains each of its prefixes. */
  lemma ContainsPrefix(s: string, sub: string, p: string)
    requires Contains(s, sub) && p <= sub
    ensures Contains(s, p)
  {
    var i: nat :| OccursAt(s, sub, i);
    assert s[i..i + |p|] == s[i..i + |sub|][..|p|];
    assert OccursAt(s, p, i);
  }

  /** Python's `sep.join(parts)`. */
  function Join(parts: seq<string>, sep: string): (r: string)
    ensures |parts| == 0 ==> r == ""
    ensures |parts| > 0 ==> |r| >= |parts[0]|
  {
    if |parts| == 0 then ""
    else if |parts| == 1 then parts[0]
    else parts[0] + sep + Join(parts[1..], sep)
  }

  function SumLengths(parts: seq<string>): nat {
    if |parts| == 0 then 0 else |parts[0]| + SumLengths(parts[1..])
  }

  /** A join is as long as its parts plus one separator between each pair. */
  lemma {:induction false} JoinLength(parts: seq<string>, sep: string)
    requires |parts| > 0
    ensures |Join(parts, sep)| == SumLengths(parts) + (|parts| - 1) * |sep|
  {
    if |parts| > 1 {
      JoinLength(parts[1..], sep);
    }
  }

  /** A join is empty exactly when there is nothing to join, provided every
      part is non-empty. */
  lemma JoinEmptyIff(parts: seq<string>, sep: string)
    requires forall s :: s in parts ==> s != ""
    ensures Join(parts, sep) == "" <==> |parts| == 0
  {
    if |parts| > 0 {
      assert parts[0] in parts;
    }
  }

  /** Number of occurrences of `c` in `s`. */
  function Count(s: string, c: char): (n: nat)
    ensures n <= |s|
    ensures n == 0 <==> c !in s
  {
    if |s| == 0 then 0 else (if s[0] == c then 1 else 0) + Count(s[1..], c)
  }

  lemma {:induction false} CountAppend(a: string, b: string, c: char)
    ensures Count(a + b, c) == Count(a, c) + Count(b, c)
    decreases |a|
  {
    if |a| > 0 {
      assert (a + b)[1..] == a[1..] + b;
      CountAppend(a[1..], b, c);
    } else {
      assert a + b == b;
    }
  }

  /** Index of the last `c` in `s`, or -1 when there is none
      (Python's `s.rfind(c)`). */
  function LastIndexOf(s: string, c: char): (k: int)
    ensures -1 <= k < |s|
    ensures k == -1 <==> c !in s
    ensures k >= 0 ==> s[k] == c
    ensures forall j :: k < j < |s| ==> s[j] != c
  {
    if |s| == 0 then -1
    else if s[|s| - 1] == c then |s| - 1
    else
      assert forall x :: x in s[..|s| - 1] ==> x in s;
      assert forall x :: x in s ==> x in s[..|s| - 1] || x == s[|s| - 1];
      LastIndexOf(s[..|s| - 1], c)
  }

  /** Python's `s.split(c)` for a one-character separator: the pieces between
      consecutive separators, always at least one. Built from the right: the
      pieces before the last separator, then the text after it. */
  function Split(s: string, c: char): (parts: seq<string>)
    ensures |parts| > 0
    decreases |s|
  {
    var k := LastIndexOf(s, c);
    if k < 0 then [s] else Split(s[..k], c) + [s[k + 1..]]
  }

  /** A string without the separator splits into itself. */
  lemma SplitWithout(s: string, c: char)
    requires c !in s
    ensures Split(s, c) == [s]
  {
  }

  /** There is one piece more than there are separators, and no piece
      holds a separator. */
  lemma {:induction false} SplitPieces(s: string, c: char)
    ensures |Split(s, c)| == Count(s, c) + 1
    ensures forall j :: 0 <= j < |Split(s, c)| ==> c !in Split(s, c)[j]
    decreases |s|
  {
    var k := LastIndexOf(s, c);
    if k >= 0 {
      var before, after := s[..k], s[k + 1..];
      SplitPieces(before, c);
      assert c !in after by {
        forall j | 0 <= j < |after| ensures after[j] != c {
          assert after[j] == s[k + 1 + j];
        }
      }
      assert s == before + [c] + after;
      CountAppend(before + [c], after, c);
      CountAppend(before, [c], c);
      assert Count([c], c) == 1;
    }
  }

  /** Joining one more part appends a separator and the part. */
  lemma {:induction false} JoinAppend(parts: seq<string>, last: string, sep: string)
    requires |parts| > 0
    ensures Join(parts + [last], sep) == Join(parts, sep) + sep + last
    decreases |parts|
  {
    var all := parts + [last];
    if |parts| > 1 {
      assert all[1..] == parts[1..] + [last];
      JoinAppend(parts[1..], last, sep);
    }
  }

  /** The last separator of `x + [c] + y` is the one between them when `y`
      holds none. */
  lemma LastIndexAfter(x: string, y: string, c: char)
    requires c !in y
    ensures LastIndexOf(x + [c] + y, c) == |x|
  {
    var s := x + [c] + y;
    var k := LastIndexOf(s, c);
    assert s[|x|] == c;
  }

  /** Joining the pieces of a split with the same separator gives back the
      original string. */
  lemma {:induction false} JoinSplit(s: string, c: char)
    ensures Join(Split(s, c), [c]) == s
    decreases |s|
  {
    var k := LastIndexOf(s, c);
    if k >= 0 {
      var before, after := s[..k], s[k + 1..];
      JoinSplit(before, c);
      JoinAppend(Split(before, c), after, [c]);
      assert s == before + [c] + after;
    }
  }

  /** Splitting a join of separator-free pieces gives the pieces back. */
  lemma {:induction false} SplitJoin(parts: seq<string>, c: char)
    requires |parts| > 0
    requires forall j :: 0 <= j < |parts| ==> c !in parts[j]
    ensures Split(Join(parts, [c]), c) == parts
    decreases |parts|
  {
    if |parts| == 1 {
      SplitWithout(parts[0], c);
    } else {
      var init, last := parts[..|parts| - 1], parts[|parts| - 1];
      assert parts == init + [last];
      SplitJoin(init, c);
      JoinAppend(init, last, [c]);
      var x := Join(init, [c]);
      var s := x + [c] + last;
      LastIndexAfter(x, last, c);
      assert s[..|x|] == x && s[|x| + 1..] == last;
    }
  }

  /** Python's `[x for x in xs if x]` on strings: the non-empty strings, in
      order. */
  function NonEmpty(xs: seq<string>): (r: seq<string>)
    ensures |r| <= |xs|
    ensures forall x :: x in r <==> x in xs && x != ""
  {
    if |xs| == 0 then []
    else
      var tail := NonEmpty(xs[1..]);
      assert forall x :: x in xs <==> x == xs[0] || x in xs[1..];
      if xs[0] != "" then [xs[0]] + tail else tail
  }

  /** Filtering distributes over concatenation: document order is kept. */
  lemma {:induction false} NonEmptyAppend(a: seq<string>, b: seq<string>)
    ensures NonEmpty(a + b) == NonEmpty(a) + NonEmpty(b)
    decreases |a|
  {
    if |a| == 0 {
      assert a + b == b;
    } else {
      assert (a + b)[1..] == a[1..] + b;
      NonEmptyAppend(a[1..], b);
    }
  }

  predicate NoDuplicates<T(==)>(xs: seq<T>) {
    forall i, j :: 0 <= i < j < |xs| ==> xs[i] != xs[j]
  }

  /** `ys` holds `f` of each of the first `|ys|` elements of `xs`. */
  predicate MapsUpTo<A, B(==)>(xs: seq<A>, ys: seq<B>, f: A -> B) {
    |ys| <= |xs| && forall j :: 0 <= j < |ys| ==> ys[j] == f(xs[j])
  }

  /** One more element keeps `MapsUpTo`. */
  lemma MapsStep<A, B>(xs: seq<A>, ys: seq<B>, f: A -> B)
    requires MapsUpTo(xs, ys, f) && |ys| < |xs|
    ensures MapsUpTo(xs, ys + [f(xs[|ys|])], f)
  {
    assert forall j :: 0 <= j < |ys| ==> (ys + [f(xs[|ys|])])[j] == ys[j];
  }
}

=== FILE: wrappers.dfy ===
/** Failure-compatible wrappers shared by the other modules. */
module Wrappers {

  /** A value that may be absent: Python's `None` versus a present value. */
  datatype Option<+T> = None | Some(value: T) {
    function GetOr(default: T): T {
      match this
      case Some(v) => v
      case None => default
    }
  }

  /** The outcome of a step that can raise: a value or the error it raised. */
  datatype Result<+T, +E> = Success(value: T) | Failure(error: E)
}
